=== FILE: README.md ===
# Storage monitor: aggregation and cold-storage reporting in Dafny

This project models the logic of a disk-usage monitor for a shared
microscopy file system. It has two halves.

- **The dashboard queries** (`app.py`). The `StorageData` table holds one
  row per folder (user) per scan: `folder`, `size_bytes`, `date`,
  `last_modified`. The queries are: the latest snapshot of every folder,
  sorted by size, largest first; one folder's recent history; the total of
  the latest snapshots; and the capacity status, with its
  normal/notice/warning/critical level.
- **The cold-storage analyzer** (`get_stats.py`). `ND2Analyzer` walks each
  user's directory for `.nd2` files. It keeps the files not accessed since a
  cutoff, and builds a report: totals, a per-user summary, and one
  migration recommendation (HIGH or MEDIUM) per kept file. `main` then
  picks out each user's recommendations for that user's CSV file.

Everything is written as pure functions over immutable values. The
database table is a `seq<Row>` in the order the database scans it. The
directory walk is a `seq<FileStat>`, in the order the walk yields the
files. Timestamps are integer microseconds. "Now" is always an explicit
parameter.

Modules, one per file:

| file | module | models |
|---|---|---|
| `storage.dfy` | `Storage` | `app.py`: rows, the four queries, the status |
| `analyzer.dfy` | `Analyzer` | `get_file_info`, `analyze_directory` |
| `report.dfy` | `Report` | `generate_report` |
| `migration.dfy` | `Migration` | `main` |
| `paths.dfy` | `Paths` | `Path.parts` of a POSIX path string |
| `lexicographic.dfy` | `Lexicographic` | Python string order; sorted distinct group keys |
| `sorting.dfy` | `Sorting` | stable insertion sort by key; sums and their permutation invariance |
| `clock.dfy` | `Clock` | microsecond timestamps, `timedelta(days=…)`, `timedelta.days` |
| `wrappers.dfy` | `Wrappers` | `Option`, `Result` |

Two points of the code shape the model. The latest-snapshot query joins
each folder with its maximum date (app.py:31-36), so it returns every row
tied at that date; `Storage.LatestStorageData` does the same. The code
reads the clock with `datetime.now()`; the model takes `now` as a
parameter.

## Model

| member | source | states |
|---|---|---|
| `Storage.MaxDates` | app.py:26-29 | The grouped subquery: one entry per folder present in the table. Each entry is at least every date of that folder and equals the date of some row of it. |
| `Storage.KeepAtMax` | app.py:31-36 | The join keeps each row whose date equals its folder's maximum, as often as the table holds it, and no other row. |
| `Storage.LatestStorageData` | app.py:24-37 | Every returned row comes from the table and carries the latest date of its folder. Every tied row is returned, each as often as in the table. Every folder of the table appears at least once. Sizes never increase along the result. |
| `Storage.UserHistory` | app.py:39-45 | Exactly the rows of `username` dated at most `days` days before `now`, with the cutoff itself included, each as often as in the table. Dates never decrease along the result. |
| `Storage.RecentRows` | app.py:42-44 | The `WHERE` clause: exactly the rows of `username` dated at or after the cutoff, each as often as in the table. |
| `Clock.DaysBefore` | app.py:41 | `now - timedelta(days=days)`: exactly `days` whole days before `now`. |
| `Storage.TotalStorage` | app.py:47-50 | An empty table totals 0. |
| `Storage.TotalStorageIsSumOfLatest` | app.py:47-50 | The total is the sum of `size_bytes` over the table rows that are latest for their folder, whatever order the sort chose. |
| `Storage.NewFolderAddsItsSize` | app.py:24-50 | A snapshot of a folder the table has not seen raises the total by exactly its size. |
| `Storage.TotalStorageNonNegative` | app.py:47-50 | With non-negative sizes the total is non-negative. |
| `Storage.Classify` | app.py:56-71 | The percentage cascade in integer form: critical iff used ≥ 90% of capacity; warning iff 80% ≤ used < 90%; notice iff 70% ≤ used < 80%; normal below 70%. Every threshold is inclusive. |
| `Storage.PercentReaches` | app.py:56 | `(used / capacity) * 100 ≥ p` computed exactly is `100·used ≥ p·capacity`. |
| `Storage.StatusOf` | app.py:52-73 | `available + total_used == capacity`, and the level is the cascade's. |
| `Storage.UsagePercent` | app.py:56 | `usage_percent` as an exact number: `percent · capacity == 100 · total_used`. |
| `Storage.StorageStatus` | app.py:52-73 | The capacity is 80·1024⁴ = 87 960 930 222 080 bytes. The used space is the total of the latest snapshots, and `available == capacity - total_used`. The level is the cascade's (`Storage.Classify`): critical, warning, notice or normal at the inclusive 90/80/70% thresholds. An empty table gives everything available and level normal. |
| `Storage.LevelNeverDecreases` | app.py:66-71 | For a fixed capacity, more usage never gives a lower warning level. |
| `Sorting.SortBy` | app.py:37 | The query ordering: the result is sorted by the key and is a permutation of its input. |
| `Paths.Parts` | get_stats.py:21 | `Path(path).parts`: an absolute path's parts start with the root "/". |
| `Paths.PartsMembers` | get_stats.py:21 | Which strings are parts: the root "/" when the path is absolute, and besides it exactly the pieces between slashes that are names (not empty, not "."). |
| `Paths.PartsAreNames` | get_stats.py:21 | Every part other than the root is a name: not empty, not ".", and free of slashes. |
| `Paths.PartAt` | get_stats.py:21 | `parts[index]`: present iff `index` is below the number of parts, and then exactly the part at `index`; otherwise Python raises `IndexError`. |
| `Analyzer.FileInfo` | get_stats.py:14-22 | The record copies the path and the stat fields, and its user is path part 4. A path with at most four parts raises `IndexError`. |
| `Analyzer.UserUnderBase` | get_stats.py:21 | The parts of `/home/aaristov/Multicell/<user>/<rest>` are "/", "home", "aaristov", "Multicell", then the user, so part 4 is the user's directory. |
| `Analyzer.FileInfoUnderBase` | get_stats.py:14-22 | Any file under a user's directory is recorded with that user as owner. |
| `Analyzer.Cutoff` | get_stats.py:26 | `cutoff_date` lies exactly `threshold_days` whole days before `now`. |
| `Analyzer.KeepStaleMembers` | get_stats.py:31-32 | A record is kept iff it was last accessed strictly before the cutoff. A file exactly at the cutoff is not kept. |
| `Analyzer.KeepStaleConcat` | get_stats.py:28-32 | Filtering works piecewise over the walk, so the kept records keep the walk's order, one record per kept file. |
| `Analyzer.Accumulate` | get_stats.py:28-32 | The loop raises `IndexError` iff some walked file lacks a user part, even a file that would not be kept. Otherwise it returns the earlier findings followed by the stale records in walk order. |
| `Analyzer.AnalyzeDirectory` | get_stats.py:24-32 | The result is exactly the earlier findings followed by the records of the walked files accessed strictly before `now - threshold_days`, in walk order, one per file. So every appended record is stale and every stale file is appended. |
| `Analyzer.NoStaleRecords` | get_stats.py:28-32 | A walk appends nothing iff none of its files was accessed before the cutoff. |
| `Report.Recommend` | get_stats.py:57-65 | `days_unused` is the floor of the elapsed days: `days·day ≤ now - last_access < (days+1)·day`. The priority is HIGH iff at least 181 whole days have elapsed, so exactly 180 days gives MEDIUM. File, size and last access are copied. |
| `Clock.WholeDays` | get_stats.py:58 | `timedelta.days`: the whole days `d` with `d·day ≤ later - earlier < (d+1)·day`, rounded down also for negative intervals. |
| `Report.Recommendations` | get_stats.py:57-65 | One recommendation per finding, in findings order. |
| `Report.OldestAccess` | get_stats.py:43 | The `min` aggregate: the value is the last access of some finding of the user and is at most every last access of that user. |
| `Report.Summarize` | get_stats.py:41-44 | The group row of a user: its count is at least 1 and equals the number of the user's findings; its size is their total; its oldest access is the `min` of their last accesses, at most each of them and equal to one of them. |
| `Report.GroupKeys` | get_stats.py:41 | The `groupby` keys are strictly increasing in Python string order and are exactly the users that have findings. |
| `Lexicographic.LessIrreflexive` | get_stats.py:41 | Python's `str` order, by which `groupby` sorts its keys, is irreflexive. |
| `Lexicographic.LessTransitive` | get_stats.py:41 | The order is transitive. |
| `Lexicographic.LessTotal` | get_stats.py:41 | Any two different strings are ordered one way or the other, so the order is a strict total order. |
| `Report.GenerateReport` | get_stats.py:34-67 | Empty findings give the "No files found" result and non-empty findings give a report. `total_files == len(findings)`, the total size is the sum of the sizes, `users_affected` is the number of distinct users, and the recommendations are one per finding in order. The summary lists each user with findings exactly once, sorted, with that user's count, size, and oldest access (the minimum last access of the user's findings). |
| `Report.SummaryAddsUp` | get_stats.py:41-51 | The per-user counts add up to `total_files`. The per-user sizes add up to the total size. |
| `Report.StaleFindingIsOld` | get_stats.py:58-64 | A file the scan kept is reported as unused for at least the threshold of whole days. A threshold above 180 days makes it HIGH. |
| `Report.TallyPartition` | get_stats.py:41-46 | Each finding belongs to exactly one of the distinct users, so the per-user sums add up to the overall sum. |
| `Lexicographic.SortedDistinct` | get_stats.py:41 | The sorted distinct keys: strictly increasing, with exactly the values of the input. |
| `Migration.AnalyzeUsers` | get_stats.py:76-77 | Scanning all users raises `IndexError` iff some user's walk holds a path without a user part. Otherwise the result is exactly the earlier findings followed by each user's stale records, user after user in list order (`Migration.StaleOfUsers`). |
| `Migration.NoStaleUsers` | get_stats.py:76-79 | The whole scan finds nothing iff no user's walk holds a file accessed before the cutoff. |
| `Migration.SelectBySegment` | get_stats.py:83-84 | As written: a recommendation is selected for a user iff the user string equals one of the parts of its file path. |
| `Migration.SelectByOwner` | get_stats.py:83-84 | As intended: a recommendation is selected iff part 4 of its path, the owner `get_file_info` records, is the user. |
| `Migration.SegmentSelectionConcat` | get_stats.py:83-84 | The written selection works piecewise over the report's recommendations. With `SelectOne` this fixes it completely: the selected recommendations keep the report's order, each as often as in the report. |
| `Migration.OwnerSelectionConcat` | get_stats.py:83-84 | The intended selection works piecewise in the same way, so it too keeps the report's order and multiplicity. |
| `Migration.OwnerSelectionsDisjoint` | get_stats.py:82-84 | Under the intended selection, no recommendation is selected for two different users. |
| `Migration.OwnerSelectionWithinSegmentSelection` | get_stats.py:83-84 | Every recommendation the intended selection picks is also picked by the written one. |
| `Migration.SegmentSelectionLeaks` | get_stats.py:83-84 | The written selection also puts an owner's file stored under a sub-directory named after another user into that other user's selection. |
| `Migration.SegmentSelectionCounterexample` | get_stats.py:83-84 | Take `/home/aaristov/Multicell/bob/alice/scan.nd2`. It is selected for alice as written, but it is bob's file. |
| `Migration.UserFiles` | get_stats.py:82-87 | One CSV per user with a non-empty selection. Each holds exactly that user's selection. |
| `Migration.MainAsWritten` | get_stats.py:69-89 | As written: `IndexError` iff some walked path has no user part. `TypeError` iff there is at least one user, every path has a user part, and no file is stale. With no users the report is the "no files" result and no CSV file is written. Otherwise the report is `generate_report` of all users' stale records, and the CSV files are the per-user selections by path part (`Migration.UserFiles` with `SelectBySegment`). |
| `Migration.MainAsWrittenCrashesWithoutFindings` | get_stats.py:79-84 | A single user whose walk yields no file makes the written `main` raise `TypeError`. |
| `Migration.Main` | get_stats.py:69-89 | As intended: `IndexError` iff a walked path has no user part. Otherwise the report is `generate_report` of all users' stale records; it is the "no files" result iff no file is stale, and then there are no CSV files. With a report, the CSV files are the per-user selections by owner (`Migration.UserFiles` with `SelectByOwner`). |
| `Migration.OwnerCsvComplete` | get_stats.py:82-87 | Under the intended selection, the CSV files miss nothing: every recommendation for a file owned by a listed user is in that user's CSV. |

## Left out

- The Flask application, its routes, templates and `jsonify`: presentation.
- SQLAlchemy and sqlite setup, query execution, and `import_existing_data`
  with its `strptime` parsing: database I/O. The table is an in-memory
  sequence.
- `os.stat`, `Path.rglob`, the sqlite read of the user list, and the CSV
  writing in `main`. These are file-system and database I/O. The walk of
  `<base>/<user>` is the `listing` parameter, the user list is a parameter,
  and the CSV files are returned as `UserFile` values.
- `datetime.now()`: replaced by the `now` parameter. The code reads the
  clock again for each recommendation; the model uses one instant
  throughout.
- `humanize.naturalsize`, `strftime` and `.round(2)`: formatting. Sizes and
  dates stay raw integers.
- The unused scheduler import in `app.py`.
- The `days=30` default of `get_user_history`: `Storage.UserHistory` takes
  `days` from its caller, and the routes that rely on the default are not
  modelled.
- Storage.Classify: the float `usage_percent` is modelled as the exact
  rational value. Float rounding right at a threshold is not modelled.
- Storage.LatestStorageData: SQL leaves the order of rows of equal size
  unspecified. The contract states only the size order and the exact
  multiplicities. The stable sort in the body is one admissible choice.
- Storage.UserHistory: the same applies to rows with equal dates.
- Paths.Parts: the POSIX rule that keeps a leading "//" as its own root is
  not modelled. The walk never produces such paths.
- Storage.LatestStorageData: the `folder`, `size_bytes` and `date` columns are
  nullable, but the model takes them as present. In SQL, a row with a NULL
  folder or date never joins, so a folder whose dates are all NULL gets no
  latest row. A NULL size that the join returns makes the `sum` of
  `get_total_storage` raise `TypeError`.
- Analyzer.Accumulate: the walk yields only files whose `os.stat`
  succeeds. A dangling symlink, or a file removed during the walk, makes
  `os.stat` raise `OSError` before `parts[4]` is read. That error path, which
  aborts `main`, is not modelled.
- `Row.id`, `Row.lastModified` and `Finding.lastModified` are carried but no
  query uses them.

## Findings

| source | as written | input that shows it | evidently intended | confidence | as-written member | corrected member |
|---|---|---|---|---|---|---|
| get_stats.py:83-84 | A recommendation goes to every user whose name equals any part of the file's path. | Users alice and bob, with bob's file `/home/aaristov/Multicell/bob/alice/scan.nd2`: it lands in alice's CSV. A user named `home` or `Multicell` would receive every file. | Select by the owner, the user part (index 4) that `get_file_info` reads. | medium, not executed | `Migration.SelectBySegment`, `Migration.SegmentSelectionCounterexample` | `Migration.SelectByOwner`, `Migration.OwnerSelectionsDisjoint` |
| get_stats.py:79-84 | With no stale file, `generate_report` returns a string, and `main` indexes it with `'recommendations'`. | One user whose directory holds no stale `.nd2` file: `TypeError`. | Report that nothing was found and write no CSV. | high, not executed | `Migration.MainAsWritten`, `Migration.MainAsWrittenCrashesWithoutFindings` | `Migration.Main` |

=== FILE: analyzer.dfy ===
/** The cold-storage scan of `ND2Analyzer` (get_stats.py): the record built
    for one `.nd2` file and the accumulation of the files not accessed
    since the cutoff. The recursive directory walk is an input: the files it
    yields, in the order it yields them, each with its `os.stat` fields. */
module Analyzer {
  import opened Wrappers
  import Clock
  import Paths

  /** The scanned root, one level above the users' directories. */
  const DefaultBase: string := "/home/aaristov/Multicell"

  /** Files not accessed for this many days are candidates. */
  const DefaultThresholdDays: int := 90

  /** Position of the user's directory in `Path.parts`: after "/", "home",
      "aaristov" and "Multicell". */
  const UserIndex: nat := 4

  /** A file found by the walk, with the `os.stat` fields used. */
  datatype FileStat = FileStat(path: string, size: int, atime: int, mtime: int)

  /** The dictionary `get_file_info` returns. */
  datatype Finding = Finding(path: string, size: int, lastAccess: int, lastModified: int, user: string)

  /** Exceptions the modelled code can raise. */
  datatype Error = IndexError | TypeError

  /** `file_path.parts[4]` exists. */
  predicate HasUser(path: string)
  {
    UserIndex < |Paths.Parts(path)|
  }

  /** Every file's path has a part at the user position. */
  predicate AllAttributed(files: seq<FileStat>)
  {
    forall f :: f in files ==> HasUser(f.path)
  }

  /** `get_file_info`: the stat fields of the file and the path part at the
      user position; a path too short for it raises `IndexError`. */
  function FileInfo(f: FileStat): (r: Result<Finding, Error>)
    ensures r.Success? <==> HasUser(f.path)
    ensures r.Failure? ==> r.error == IndexError
    ensures r.Success? ==>
              && r.value.path == f.path && r.value.size == f.size
              && r.value.lastAccess == f.atime && r.value.lastModified == f.mtime
              && r.value.user == Paths.Parts(f.path)[UserIndex]
  {
    var parts := Paths.Parts(f.path);
    if UserIndex < |parts| then
      Success(Finding(f.path, f.size, f.atime, f.mtime, parts[UserIndex]))
    else
      Failure(IndexError)
  }

  /** A file under `<base>/<user>/` is attributed to `user`: the parts of
      its path are the four parts of the base, then `user`, then the names
      below it. */
  lemma UserUnderBase(user: string, rest: string)
    requires '/' !in user && Paths.IsName(user)
    ensures Paths.Parts(DefaultBase + "/" + user + "/" + rest)
            == ["/", "home", "aaristov", "Multicell", user] + Paths.Names(Paths.Segments(rest))
  {
    var head := ["home", "aaristov", "Multicell", user];
    var names := Paths.Names(Paths.Segments(rest));
    PartsUnderBase(user, rest);
    Paths.NamesConcat(head, Paths.Segments(rest));
    HeadNames(user);
    assert ["/"] + (head + names) == ["/", "home", "aaristov", "Multicell", user] + names;
  }

  lemma PartsUnderBase(user: string, rest: string)
    requires '/' !in user
    ensures Paths.Parts(DefaultBase + "/" + user + "/" + rest)
            == ["/"] + Paths.Names(["home", "aaristov", "Multicell", user] + Paths.Segments(rest))
  {
    BaseSegments(user, rest);
    assert (DefaultBase + "/" + user + "/" + rest)[0] == '/';
  }

  /** `get_file_info` on a file under `<base>/<user>/` succeeds and names
      `user` as the owner. */
  lemma FileInfoUnderBase(user: string, rest: string, size: int, atime: int, mtime: int)
    requires '/' !in user && Paths.IsName(user)
    ensures FileInfo(FileStat(DefaultBase + "/" + user + "/" + rest, size, atime, mtime))
            == Success(Finding(DefaultBase + "/" + user + "/" + rest, size, atime, mtime, user))
  {
    UserUnderBase(user, rest);
  }

  lemma BaseSegments(user: string, rest: string)
    requires '/' !in user
    ensures Paths.Segments((DefaultBase + "/" + user + "/" + rest)[1..])
            == ["home", "aaristov", "Multicell", user] + Paths.Segments(rest)
  {
    assert (DefaultBase + "/" + user + "/" + rest)[1..]
        == "home" + "/" + ("aaristov" + "/" + ("Multicell" + "/" + (user + "/" + rest)));
    assert '/' !in "home" && '/' !in "aaristov" && '/' !in "Multicell";
    SegmentsFour("home", "aaristov", "Multicell", user, rest);
  }

  /** Four slash-free pieces followed by anything. */
  lemma SegmentsFour(a: string, b: string, c: string, d: string, rest: string)
    requires '/' !in a && '/' !in b && '/' !in c && '/' !in d
    ensures Paths.Segments(a + "/" + (b + "/" + (c + "/" + (d + "/" + rest))))
            == [a, b, c, d] + Paths.Segments(rest)
  {
    Paths.SegmentsCons(d, rest);
    Paths.SegmentsCons(c, d + "/" + rest);
    Paths.SegmentsCons(b, c + "/" + (d + "/" + rest));
    Paths.SegmentsCons(a, b + "/" + (c + "/" + (d + "/" + rest)));
  }

  lemma HeadNames(user: string)
    requires Paths.IsName(user)
    ensures Paths.Names(["home", "aaristov", "Multicell", user]) == ["home", "aaristov", "Multicell", user]
  {
    Paths.NamesConcat(["home"], ["aaristov", "Multicell", user]);
    Paths.NamesConcat(["aaristov"], ["Multicell", user]);
    Paths.NamesConcat(["Multicell"], [user]);
    assert Paths.Names(["home"]) == ["home"];
    assert Paths.Names(["aaristov"]) == ["aaristov"];
    assert Paths.Names(["Multicell"]) == ["Multicell"];
    assert Paths.Names([user]) == [user];
  }

  /** The cutoff of `analyze_directory`: `threshold_days` days before now. */
  function Cutoff(now: int, thresholdDays: int): (c: int)
    ensures now - c == thresholdDays * Clock.TicksPerDay
  {
    Clock.DaysBefore(now, thresholdDays)
  }

  /** The records of all files, in walk order. */
  function Infos(files: seq<FileStat>): (r: seq<Finding>)
    requires AllAttributed(files)
    ensures |r| == |files|
  {
    if |files| == 0 then []
    else [FileInfo(files[0]).value] + Infos(files[1..])
  }

  /** The `i`-th record is the one `get_file_info` gives for the `i`-th file. */
  lemma {:induction false} InfosAt(files: seq<FileStat>, i: int)
    requires AllAttributed(files)
    requires 0 <= i < |files|
    ensures Success(Infos(files)[i]) == FileInfo(files[i])
    decreases i
  {
    if i > 0 {
      AttributedCons(files);
      InfosAt(files[1..], i - 1);
    }
  }

  /** The records last accessed strictly before `cutoff`, in order. */
  function KeepStale(infos: seq<Finding>, cutoff: int): (r: seq<Finding>)
    ensures |r| <= |infos|
  {
    if |infos| == 0 then []
    else (if infos[0].lastAccess < cutoff then [infos[0]] else []) + KeepStale(infos[1..], cutoff)
  }

  /** The stale filter keeps exactly the records accessed before the
      cutoff; a record exactly at the cutoff is not kept. */
  lemma {:induction false} KeepStaleMembers(infos: seq<Finding>, cutoff: int)
    ensures forall x :: x in KeepStale(infos, cutoff) <==> x in infos && x.lastAccess < cutoff
    decreases |infos|
  {
    if |infos| > 0 {
      KeepStaleMembers(infos[1..], cutoff);
      assert infos == [infos[0]] + infos[1..];
    }
  }

  /** The stale filter works piecewise, so kept records stay in the order
      of the walk and each kept file gives exactly one record. */
  lemma {:induction false} KeepStaleConcat(a: seq<Finding>, b: seq<Finding>, cutoff: int)
    ensures KeepStale(a + b, cutoff) == KeepStale(a, cutoff) + KeepStale(b, cutoff)
    decreases |a|
  {
    if |a| == 0 {
      assert a + b == b;
    } else {
      assert (a + b)[1..] == a[1..] + b;
      KeepStaleConcat(a[1..], b, cutoff);
    }
  }

  /** The loop of `analyze_directory`: records every file (raising on the
      first path without a user part) and appends the stale ones to
      `findings`. */
  function Accumulate(findings: seq<Finding>, files: seq<FileStat>, cutoff: int): (r: Result<seq<Finding>, Error>)
    ensures r.Success? <==> AllAttributed(files)
    ensures r.Failure? ==> r.error == IndexError
    ensures r.Success? ==> r.value == findings + KeepStale(Infos(files), cutoff)
    decreases |files|
  {
    if |files| == 0 then Success(findings)
    else
      match FileInfo(files[0])
      case Failure(e) => Failure(e)
      case Success(info) =>
        var next := if info.lastAccess < cutoff then findings + [info] else findings;
        var r := Accumulate(next, files[1..], cutoff);
        AccumulateStep(findings, files, cutoff, info, next);
        r
  }

  /** One iteration of the loop, in terms of the stale filter. */
  lemma AccumulateStep(findings: seq<Finding>, files: seq<FileStat>, cutoff: int, info: Finding, next: seq<Finding>)
    requires |files| > 0 && FileInfo(files[0]) == Success(info)
    requires next == if info.lastAccess < cutoff then findings + [info] else findings
    ensures AllAttributed(files) <==> AllAttributed(files[1..])
    ensures AllAttributed(files) ==>
              next + KeepStale(Infos(files[1..]), cutoff) == findings + KeepStale(Infos(files), cutoff)
  {
    AttributedCons(files);
    if AllAttributed(files) {
      StaleCons(findings, files, cutoff, info, next);
    }
  }

  lemma AttributedCons(files: seq<FileStat>)
    requires |files| > 0 && HasUser(files[0].path)
    ensures AllAttributed(files) <==> AllAttributed(files[1..])
  {
  }

  lemma StaleCons(findings: seq<Finding>, files: seq<FileStat>, cutoff: int, info: Finding, next: seq<Finding>)
    requires |files| > 0 && FileInfo(files[0]) == Success(info)
    requires next == if info.lastAccess < cutoff then findings + [info] else findings
    requires AllAttributed(files)
    ensures AllAttributed(files[1..])
    ensures next + KeepStale(Infos(files[1..]), cutoff) == findings + KeepStale(Infos(files), cutoff)
  {
    InfosHead(files, info);
    KeepStaleHead(Infos(files), findings, cutoff, next);
  }

  lemma InfosHead(files: seq<FileStat>, info: Finding)
    requires |files| > 0 && FileInfo(files[0]) == Success(info)
    requires AllAttributed(files)
    ensures AllAttributed(files[1..])
    ensures |Infos(files)| > 0 && Infos(files)[0] == info && Infos(files)[1..] == Infos(files[1..])
  {
  }

  lemma KeepStaleHead(infos: seq<Finding>, findings: seq<Finding>, cutoff: int, next: seq<Finding>)
    requires |infos| > 0
    requires next == if infos[0].lastAccess < cutoff then findings + [infos[0]] else findings
    ensures next + KeepStale(infos[1..], cutoff) == findings + KeepStale(infos, cutoff)
  {
  }

  /** No file of the walk was accessed before the cutoff. */
  predicate AllFresh(files: seq<FileStat>, cutoff: int)
  {
    forall f :: f in files ==> f.atime >= cutoff
  }

  /** A walk adds nothing iff none of its files was accessed before the
      cutoff. */
  lemma {:induction false} NoStaleRecords(files: seq<FileStat>, cutoff: int)
    requires AllAttributed(files)
    ensures KeepStale(Infos(files), cutoff) == [] <==> AllFresh(files, cutoff)
    decreases |files|
  {
    if |files| > 0 {
      var info := FileInfo(files[0]).value;
      InfosHead(files, info);
      NoStaleRecords(files[1..], cutoff);
      var rest := KeepStale(Infos(files[1..]), cutoff);
      assert KeepStale(Infos(files), cutoff) == (if info.lastAccess < cutoff then [info] else []) + rest;
      assert info.lastAccess == files[0].atime;
      assert forall f :: f in files <==> f == files[0] || f in files[1..];
    }
  }

  /** `analyze_directory` on the files the walk of `<base>/<user>` yields:
      the earlier findings stay an unchanged prefix and the stale files are
      appended after them. */
  function AnalyzeDirectory(findings: seq<Finding>, files: seq<FileStat>, now: int, thresholdDays: int)
    : (r: Result<seq<Finding>, Error>)
    ensures r.Success? <==> AllAttributed(files)
    ensures r.Success? ==> |findings| <= |r.value| && r.value[..|findings|] == findings
    ensures r.Success? ==> forall x :: x in r.value[|findings|..] ==>
                                         x.lastAccess < Cutoff(now, thresholdDays)
    ensures r.Success? ==> forall f :: f in files && f.atime < Cutoff(now, thresholdDays) ==>
                                         FileInfo(f).value in r.value[|findings|..]
    ensures r.Success? ==> r.value == findings + KeepStale(Infos(files), Cutoff(now, thresholdDays))
  {
    var cutoff := Cutoff(now, thresholdDays);
    var r := Accumulate(findings, files, cutoff);
    if r.Success? then
      var added := KeepStale(Infos(files), cutoff);
      assert r.value[|findings|..] == added;
      KeepStaleMembers(Infos(files), cutoff);
      forall f | f in files && f.atime < cutoff
        ensures FileInfo(f).value in added
      {
        var i :| 0 <= i < |files| && files[i] == f;
        InfosAt(files, i);
      }
      r
    else r
  }
}

=== FILE: clock.dfy ===
/** Timestamps. Python `datetime` values are modelled as integer
    microseconds on one common time line; the wall clock is never read, and
    every operation that used `datetime.now()` takes `now` as a parameter. */
module Clock {

  /** Microseconds in one `timedelta(days=1)`. */
  const TicksPerDay: int := 86_400_000_000

  /** `now - timedelta(days=days)`. */
  function DaysBefore(now: int, days: int): (t: int)
    ensures now - t == days * TicksPerDay
  {
    now - days * TicksPerDay
  }

  /** `timedelta.days` of the interval `later - earlier`: whole days,
      rounded towards minus infinity as Python does. */
  function WholeDays(earlier: int, later: int): (d: int)
    ensures d * TicksPerDay <= later - earlier < (d + 1) * TicksPerDay
  {
    (later - earlier) / TicksPerDay
  }
}

=== FILE: lexicographic.dfy ===
/** Python's `str` ordering (code point by code point, a proper prefix
    first) and the sorted list of distinct keys that a pandas `groupby`
    produces. */
module Lexicographic {

  predicate Less(a: string, b: string)
    decreases |a|
  {
    if |a| == 0 then |b| > 0
    else if |b| == 0 then false
    else if a[0] != b[0] then a[0] < b[0]
    else Less(a[1..], b[1..])
  }

  lemma {:induction false} LessIrreflexive(a: string)
    ensures !Less(a, a)
    decreases |a|
  {
    if |a| > 0 {
      LessIrreflexive(a[1..]);
    }
  }

  lemma {:induction false} LessTransitive(a: string, b: string, c: string)
    requires Less(a, b) && Less(b, c)
    ensures Less(a, c)
    decreases |a|
  {
    if |a| > 0 && |b| > 0 && |c| > 0 && a[0] == b[0] && b[0] == c[0] {
      LessTransitive(a[1..], b[1..], c[1..]);
    }
  }

  lemma {:induction false} LessTotal(a: string, b: string)
    requires a != b
    ensures Less(a, b) || Less(b, a)
    decreases |a|
  {
    if |a| > 0 && |b| > 0 && a[0] == b[0] {
      assert a == [a[0]] + a[1..] && b == [b[0]] + b[1..];
      LessTotal(a[1..], b[1..]);
    }
  }

  /** Strictly increasing, hence free of duplicates. */
  predicate StrictlySorted(s: seq<string>)
  {
    forall i, j :: 0 <= i < j < |s| ==> Less(s[i], s[j])
  }

  /** Adds `x` to a strictly sorted list unless it is already there. */
  function InsertKey(x: string, s: seq<string>): (r: seq<string>)
    requires StrictlySorted(s)
    ensures StrictlySorted(r)
    ensures forall y :: y in r <==> y == x || y in s
  {
    if |s| == 0 then [x]
    else if x == s[0] then s
    else if Less(x, s[0]) then
      var r := [x] + s;
      forall i, j | 0 <= i < j < |r|
        ensures Less(r[i], r[j])
      {
        if i == 0 && j > 1 {
          LessTransitive(x, s[0], s[j - 1]);
        }
      }
      r
    else
      LessTotal(x, s[0]);
      var tail := InsertKey(x, s[1..]);
      var r := [s[0]] + tail;
      forall i, j | 0 <= i < j < |r|
        ensures Less(r[i], r[j])
      {
        if i == 0 {
          assert r[j] in tail;
        }
      }
      r
  }

  /** The distinct values of `keys`, in increasing order. */
  function SortedDistinct(keys: seq<string>): (r: seq<string>)
    ensures StrictlySorted(r)
    ensures forall y :: y in r <==> y in keys
  {
    if |keys| == 0 then []
    else InsertKey(keys[0], SortedDistinct(keys[1..]))
  }

  /** A strictly sorted list has as many elements as its set. */
  lemma {:induction false} SortedCardinality(s: seq<string>)
    requires StrictlySorted(s)
    ensures |set x | x in s| == |s|
    decreases |s|
  {
    if |s| > 0 {
      SortedCardinality(s[1..]);
      assert s[0] !in s[1..] by {
        forall j | 0 < j < |s|
          ensures s[j] != s[0]
        {
          LessIrreflexive(s[0]);
        }
      }
      assert (set x | x in s) == {s[0]} + (set x | x in s[1..]);
    }
  }
}

=== FILE: migration.dfy ===
/** `main` of get_stats.py: scan every user's directory, build the report,
    and pick each user's recommendations for that user's CSV file. The
    user list (read from the storage database) and the directory walk are
    inputs; the CSV files are the returned (user, recommendations) pairs. */
module Migration {
  import opened Wrappers
  import Paths
  import opened Analyzer
  import opened Report

  /** The recommendations of one user's CSV file. */
  datatype UserFile = UserFile(user: string, recommendations: seq<Recommendation>)

  datatype MainOutput = MainOutput(report: Outcome, files: seq<UserFile>)

  // ---------------------------------------------------------------------
  // Selecting a user's recommendations

  /** As written: `user in Path(r['file']).parts`, a match on any part of
      the path. */
  function SelectBySegment(recs: seq<Recommendation>, user: string): (r: seq<Recommendation>)
    ensures forall x :: x in r <==> x in recs && user in Paths.Parts(x.file)
    ensures |r| <= |recs|
  {
    if |recs| == 0 then []
    else
      assert recs == [recs[0]] + recs[1..];
      (if user in Paths.Parts(recs[0].file) then [recs[0]] else []) + SelectBySegment(recs[1..], user)
  }

  /** As intended: the user's own files, those whose user part (the part
      `get_file_info` reads the owner from) is `user`. */
  function SelectByOwner(recs: seq<Recommendation>, user: string): (r: seq<Recommendation>)
    ensures forall x :: x in r <==> x in recs && Paths.PartAt(x.file, UserIndex) == Some(user)
    ensures |r| <= |recs|
  {
    if |recs| == 0 then []
    else
      assert recs == [recs[0]] + recs[1..];
      (if Paths.PartAt(recs[0].file, UserIndex) == Some(user) then [recs[0]] else [])
        + SelectByOwner(recs[1..], user)
  }

  /** The owner's part is one of the parts, so the intended selection never
      misses a file the written one picks for its owner. */
  lemma OwnerSelectionWithinSegmentSelection(recs: seq<Recommendation>, user: string)
    ensures forall x :: x in SelectByOwner(recs, user) ==> x in SelectBySegment(recs, user)
  {
  }

  /** The intended selection gives every recommendation to one user at
      most: different users' files never overlap. */
  lemma OwnerSelectionsDisjoint(recs: seq<Recommendation>, u: string, v: string)
    requires u != v
    ensures forall x :: !(x in SelectByOwner(recs, u) && x in SelectByOwner(recs, v))
  {
  }

  /** The written selection also hands a file to any user whose name is a
      directory on the file's path: a file of `owner` stored under a
      sub-directory named `other` lands in `other`'s CSV file too. */
  lemma SegmentSelectionLeaks(owner: string, other: string, name: string, rec: Recommendation)
    requires '/' !in owner && Paths.IsName(owner)
    requires '/' !in other && Paths.IsName(other)
    requires owner != other
    requires rec.file == DefaultBase + "/" + owner + "/" + (other + "/" + name)
    ensures SelectBySegment([rec], other) == [rec]
    ensures SelectByOwner([rec], other) == []
  {
    NestedParts(owner, other, name);
    LeaksFromParts(rec, owner, other, Paths.Names(Paths.Segments(name)));
  }

  lemma LeaksFromParts(rec: Recommendation, owner: string, other: string, tail: seq<string>)
    requires owner != other
    requires Paths.Parts(rec.file) == ["/", "home", "aaristov", "Multicell", owner, other] + tail
    ensures SelectBySegment([rec], other) == [rec]
    ensures SelectByOwner([rec], other) == []
    ensures SelectByOwner([rec], owner) == [rec]
  {
  }

  /** Both selections on a single recommendation. */
  lemma SelectOne(rec: Recommendation, user: string)
    ensures SelectBySegment([rec], user) == if user in Paths.Parts(rec.file) then [rec] else []
    ensures SelectByOwner([rec], user) == if Paths.PartAt(rec.file, UserIndex) == Some(user) then [rec] else []
  {
  }

  /** The written selection works piecewise, like the comprehension it
      models: selected recommendations keep the report's order, each as
      often as in the report. */
  lemma {:induction false} SegmentSelectionConcat(a: seq<Recommendation>, b: seq<Recommendation>, user: string)
    ensures SelectBySegment(a + b, user) == SelectBySegment(a, user) + SelectBySegment(b, user)
    decreases |a|
  {
    if |a| == 0 {
      assert a + b == b;
    } else {
      assert (a + b)[1..] == a[1..] + b;
      SegmentSelectionConcat(a[1..], b, user);
    }
  }

  /** The intended selection works piecewise in the same way. */
  lemma {:induction false} OwnerSelectionConcat(a: seq<Recommendation>, b: seq<Recommendation>, user: string)
    ensures SelectByOwner(a + b, user) == SelectByOwner(a, user) + SelectByOwner(b, user)
    decreases |a|
  {
    if |a| == 0 {
      assert a + b == b;
    } else {
      assert (a + b)[1..] == a[1..] + b;
      OwnerSelectionConcat(a[1..], b, user);
    }
  }

  lemma NestedParts(owner: string, other: string, name: string)
    requires '/' !in owner && Paths.IsName(owner)
    requires '/' !in other && Paths.IsName(other)
    ensures Paths.Parts(DefaultBase + "/" + owner + "/" + (other + "/" + name))
            == ["/", "home", "aaristov", "Multicell", owner, other] + Paths.Names(Paths.Segments(name))
  {
    UserUnderBase(owner, other + "/" + name);
    Paths.SegmentsCons(other, name);
    Paths.NamesConcat([other], Paths.Segments(name));
    assert Paths.Names([other]) == [other];
    var tail := Paths.Names(Paths.Segments(name));
    assert ["/", "home", "aaristov", "Multicell", owner] + ([other] + tail)
        == ["/", "home", "aaristov", "Multicell", owner, other] + tail;
  }

  /** The concrete case: with users "alice" and "bob", bob's file
      `/home/aaristov/Multicell/bob/alice/scan.nd2` is also selected for
      alice. */
  lemma SegmentSelectionCounterexample(rec: Recommendation)
    requires rec.file == "/home/aaristov/Multicell/bob/alice/scan.nd2"
    ensures SelectBySegment([rec], "alice") == [rec]
    ensures SelectByOwner([rec], "alice") == []
    ensures SelectByOwner([rec], "bob") == [rec]
  {
    assert rec.file == DefaultBase + "/" + "bob" + "/" + ("alice" + "/" + "scan.nd2");
    NestedParts("bob", "alice", "scan.nd2");
    LeaksFromParts(rec, "bob", "alice", Paths.Names(Paths.Segments("scan.nd2")));
  }

  /** The CSV files of the loop over `users`: one per user whose selection
      is not empty, in user order. */
  function UserFiles(recs: seq<Recommendation>, users: seq<string>,
                     select: (seq<Recommendation>, string) -> seq<Recommendation>): (r: seq<UserFile>)
    ensures forall f :: f in r ==> f.user in users && f.recommendations == select(recs, f.user)
                                   && |f.recommendations| > 0
    ensures forall u :: u in users && |select(recs, u)| > 0 ==> exists f :: f in r && f.user == u
  {
    if |users| == 0 then []
    else
      assert users == [users[0]] + users[1..];
      var picked := select(recs, users[0]);
      (if |picked| > 0 then [UserFile(users[0], picked)] else []) + UserFiles(recs, users[1..], select)
  }

  // ---------------------------------------------------------------------
  // Scanning every user

  /** What a scan of every user should yield: each user's stale records,
      in walk order, one user after another in `users` order. */
  function StaleOfUsers(users: seq<string>, listing: string -> seq<FileStat>, cutoff: int): seq<Finding>
    requires forall u :: u in users ==> AllAttributed(listing(u))
    decreases |users|
  {
    if |users| == 0 then []
    else KeepStale(Infos(listing(users[0])), cutoff) + StaleOfUsers(users[1..], listing, cutoff)
  }

  /** No user's walk holds a file accessed before the cutoff. */
  predicate NothingStale(users: seq<string>, listing: string -> seq<FileStat>, cutoff: int)
  {
    forall u :: u in users ==> AllFresh(listing(u), cutoff)
  }

  /** The whole scan finds nothing iff no user's walk holds a file accessed
      before the cutoff. */
  lemma {:induction false} NoStaleUsers(users: seq<string>, listing: string -> seq<FileStat>, cutoff: int)
    requires forall u :: u in users ==> AllAttributed(listing(u))
    ensures StaleOfUsers(users, listing, cutoff) == [] <==> NothingStale(users, listing, cutoff)
    decreases |users|
  {
    if |users| > 0 {
      var head := KeepStale(Infos(listing(users[0])), cutoff);
      var rest := StaleOfUsers(users[1..], listing, cutoff);
      assert StaleOfUsers(users, listing, cutoff) == head + rest;
      NoStaleRecords(listing(users[0]), cutoff);
      NoStaleUsers(users[1..], listing, cutoff);
      assert forall u :: u in users <==> u == users[0] || u in users[1..];
    }
  }

  /** The loop `for user in users: analyzer.analyze_directory(user)`, where
      `listing(user)` is what the walk of `<base>/<user>` yields. */
  function AnalyzeUsers(findings: seq<Finding>, users: seq<string>, listing: string -> seq<FileStat>,
                        now: int, thresholdDays: int): (r: Result<seq<Finding>, Error>)
    ensures r.Success? <==> forall u :: u in users ==> AllAttributed(listing(u))
    ensures r.Failure? ==> r.error == IndexError
    ensures r.Success? ==> |findings| <= |r.value| && r.value[..|findings|] == findings
    ensures r.Success? ==> forall x :: x in r.value[|findings|..] ==> x.lastAccess < Cutoff(now, thresholdDays)
    ensures r.Success? ==> forall u, f :: u in users && f in listing(u) && f.atime < Cutoff(now, thresholdDays) ==>
                                            FileInfo(f).value in r.value
    ensures r.Success? ==> r.value == findings + StaleOfUsers(users, listing, Cutoff(now, thresholdDays))
    decreases |users|
  {
    if |users| == 0 then Success(findings)
    else
      assert users == [users[0]] + users[1..];
      match AnalyzeDirectory(findings, listing(users[0]), now, thresholdDays)
      case Failure(e) => Failure(e)
      case Success(next) =>
        var r := AnalyzeUsers(next, users[1..], listing, now, thresholdDays);
        if r.Success? then
          var cutoff := Cutoff(now, thresholdDays);
          AnalyzeUsersStep(findings, next, r.value, cutoff);
          StaleOfUsersStep(findings, next, r.value, KeepStale(Infos(listing(users[0])), cutoff),
                           StaleOfUsers(users[1..], listing, cutoff));
          r
        else r
  }

  /** Appending stale findings twice: the first prefix survives both. */
  lemma AnalyzeUsersStep(findings: seq<Finding>, next: seq<Finding>, all: seq<Finding>, cutoff: int)
    requires |findings| <= |next| && next[..|findings|] == findings
    requires forall x :: x in next[|findings|..] ==> x.lastAccess < cutoff
    requires |next| <= |all| && all[..|next|] == next
    requires forall x :: x in all[|next|..] ==> x.lastAccess < cutoff
    ensures |findings| <= |all| && all[..|findings|] == findings
    ensures forall x :: x in all[|findings|..] ==> x.lastAccess < cutoff
    ensures forall x :: x in next[|findings|..] ==> x in all
  {
  }

  /** Regroups one scan step so that it matches `StaleOfUsers`: the
      records so far, then this user's, then the rest. Kept as a lemma so
      that `AnalyzeUsers` does not reason about concatenation itself. */
  lemma StaleOfUsersStep(findings: seq<Finding>, next: seq<Finding>, all: seq<Finding>,
                         mine: seq<Finding>, rest: seq<Finding>)
    requires next == findings + mine
    requires all == next + rest
    ensures all == findings + (mine + rest)
  {
  }

  // ---------------------------------------------------------------------
  // main

  /** `main` as written. An empty finding list makes `generate_report`
      return the "No files found" string, and the first pass of the CSV
      loop indexes that string with 'recommendations', raising `TypeError`
      (with no users at all the loop never runs and the string is
      returned). Users are matched on any path part. */
  function MainAsWritten(users: seq<string>, listing: string -> seq<FileStat>, now: int)
    : (r: Result<MainOutput, Error>)
    ensures r.Failure? && r.error == IndexError <==> exists u :: u in users && !AllAttributed(listing(u))
    ensures r.Failure? && r.error == TypeError <==>
              && |users| > 0 && (forall u :: u in users ==> AllAttributed(listing(u)))
              && NothingStale(users, listing, Cutoff(now, DefaultThresholdDays))
    ensures r.Success? ==> r.value.report == GenerateReport(StaleOfUsers(users, listing, Cutoff(now, DefaultThresholdDays)), now)
    ensures r.Success? && r.value.report.NoFiles? ==> r.value.files == []
    ensures r.Success? && r.value.report.Generated? ==>
              r.value.files == UserFiles(r.value.report.report.recommendations, users, SelectBySegment)
    ensures r.Success? && r.value.report.Generated? ==>
              forall f, x :: f in r.value.files && x in f.recommendations ==>
                x in r.value.report.report.recommendations && f.user in Paths.Parts(x.file)
  {
    match AnalyzeUsers([], users, listing, now, DefaultThresholdDays)
    case Failure(e) => Failure(e)
    case Success(findings) =>
      NoStaleUsers(users, listing, Cutoff(now, DefaultThresholdDays));
      match GenerateReport(findings, now)
      case NoFiles =>
        if |users| > 0 then Failure(TypeError) else Success(MainOutput(NoFiles, []))
      case Generated(report) =>
        Success(MainOutput(Generated(report), UserFiles(report.recommendations, users, SelectBySegment)))
  }

  /** A user without any stale file crashes the written `main`. */
  lemma MainAsWrittenCrashesWithoutFindings(user: string, listing: string -> seq<FileStat>, now: int)
    requires listing(user) == []
    ensures MainAsWritten([user], listing, now) == Failure(TypeError)
  {
    assert AnalyzeDirectory([], listing(user), now, DefaultThresholdDays) == Success([]);
    assert [user][1..] == [];
    assert AnalyzeUsers([], [], listing, now, DefaultThresholdDays) == Success([]);
    assert AnalyzeUsers([], [user], listing, now, DefaultThresholdDays) == Success([]);
    assert GenerateReport([], now) == NoFiles;
  }

  /** `main` as intended: no findings give the "no files" result and no CSV
      files, and each user's CSV holds exactly the recommendations for
      files under that user's directory. */
  function Main(users: seq<string>, listing: string -> seq<FileStat>, now: int)
    : (r: Result<MainOutput, Error>)
    ensures r.Failure? <==> exists u :: u in users && !AllAttributed(listing(u))
    ensures r.Failure? ==> r.error == IndexError
    ensures r.Success? ==> r.value.report == GenerateReport(StaleOfUsers(users, listing, Cutoff(now, DefaultThresholdDays)), now)
    ensures r.Success? ==> (r.value.report.NoFiles? <==> NothingStale(users, listing, Cutoff(now, DefaultThresholdDays)))
    ensures r.Success? && r.value.report.NoFiles? ==> r.value.files == []
    ensures r.Success? && r.value.report.Generated? ==>
              r.value.files == UserFiles(r.value.report.report.recommendations, users, SelectByOwner)
    ensures r.Success? && r.value.report.Generated? ==>
              forall f, x :: f in r.value.files && x in f.recommendations ==>
                x in r.value.report.report.recommendations && Paths.PartAt(x.file, UserIndex) == Some(f.user)
  {
    match AnalyzeUsers([], users, listing, now, DefaultThresholdDays)
    case Failure(e) => Failure(e)
    case Success(findings) =>
      NoStaleUsers(users, listing, Cutoff(now, DefaultThresholdDays));
      match GenerateReport(findings, now)
      case NoFiles => Success(MainOutput(NoFiles, []))
      case Generated(report) =>
        Success(MainOutput(Generated(report), UserFiles(report.recommendations, users, SelectByOwner)))
  }

  /** Under the intended selection the CSV files `main` writes (the
      `files` of `Main`) miss nothing: every recommendation for a file owned
      by a listed user reaches that user's CSV file. */
  lemma OwnerCsvComplete(recs: seq<Recommendation>, users: seq<string>, u: string, x: Recommendation)
    requires u in users && x in recs
    requires Paths.PartAt(x.file, UserIndex) == Some(u)
    ensures exists f :: f in UserFiles(recs, users, SelectByOwner) && f.user == u && x in f.recommendations
  {
    var select := SelectByOwner;
    var mine := select(recs, u);
    assert x in mine;
    var files := UserFiles(recs, users, select);
    assert exists f :: f in files && f.user == u;
    var f :| f in files && f.user == u;
    assert f.recommendations == mine;
  }
}

=== FILE: paths.dfy ===
/** POSIX path strings and the `parts` of a `pathlib.Path`. */
module Paths {
  import opened Wrappers

  /** Index of the first '/' in `s`. */
  function FirstSlash(s: string): (i: nat)
    requires '/' in s
    ensures i < |s| && s[i] == '/'
    ensures forall j :: 0 <= j < i ==> s[j] != '/'
  {
    if s[0] == '/' then 0 else 1 + FirstSlash(s[1..])
  }

  /** `s.split('/')`: the pieces between slashes, empty ones included. */
  function Segments(s: string): (r: seq<string>)
    ensures |r| >= 1
    decreases |s|
  {
    if '/' !in s then [s]
    else
      var i := FirstSlash(s);
      [s[..i]] + Segments(s[i + 1..])
  }

  /** Splitting at a slash that follows a slash-free prefix. */
  lemma SegmentsCons(a: string, b: string)
    requires '/' !in a
    ensures Segments(a + "/" + b) == [a] + Segments(b)
  {
    var s := a + "/" + b;
    assert s[|a|] == '/';
    assert forall j :: 0 <= j < |a| ==> s[j] == a[j];
    var i := FirstSlash(s);
    assert i == |a|;
    assert s[..i] == a && s[i + 1..] == b;
  }

  /** No piece of a split holds a slash. */
  lemma {:induction false} SegmentsSlashFree(s: string)
    ensures forall i :: 0 <= i < |Segments(s)| ==> '/' !in Segments(s)[i]
    decreases |s|
  {
    if '/' in s {
      var i := FirstSlash(s);
      SegmentsSlashFree(s[i + 1..]);
      assert '/' !in s[..i];
    }
  }

  /** `pathlib` drops empty pieces (repeated or trailing slashes) and "."
      pieces. */
  predicate IsName(piece: string)
  {
    piece != "" && piece != "."
  }

  function Names(pieces: seq<string>): (r: seq<string>)
    ensures forall i :: 0 <= i < |r| ==> IsName(r[i])
    ensures forall i :: 0 <= i < |r| ==> r[i] in pieces
  {
    if |pieces| == 0 then []
    else
      assert pieces == [pieces[0]] + pieces[1..];
      (if IsName(pieces[0]) then [pieces[0]] else []) + Names(pieces[1..])
  }

  /** The names are exactly the pieces that are names. */
  lemma {:induction false} NamesMembers(pieces: seq<string>)
    ensures forall x :: x in Names(pieces) <==> x in pieces && IsName(x)
    decreases |pieces|
  {
    if |pieces| > 0 {
      NamesMembers(pieces[1..]);
      assert pieces == [pieces[0]] + pieces[1..];
    }
  }

  lemma {:induction false} NamesConcat(a: seq<string>, b: seq<string>)
    ensures Names(a + b) == Names(a) + Names(b)
    decreases |a|
  {
    if |a| == 0 {
      assert a + b == b;
    } else {
      assert (a + b)[1..] == a[1..] + b;
      NamesConcat(a[1..], b);
    }
  }

  /** `Path(path).parts`: the root "/" first for an absolute path, then
      every name. */
  function Parts(path: string): (r: seq<string>)
    ensures |path| > 0 && path[0] == '/' ==> |r| >= 1 && r[0] == "/"
  {
    if |path| > 0 && path[0] == '/' then ["/"] + Names(Segments(path[1..]))
    else Names(Segments(path))
  }

  /** Apart from the root, every part is a name: not empty, not ".", and
      free of slashes. */
  lemma PartsAreNames(path: string)
    ensures forall i :: 0 <= i < |Parts(path)| && !(i == 0 && |path| > 0 && path[0] == '/') ==>
              IsName(Parts(path)[i]) && '/' !in Parts(path)[i]
  {
    if |path| > 0 && path[0] == '/' {
      SegmentsSlashFree(path[1..]);
    } else {
      SegmentsSlashFree(path);
    }
  }

  /** Which strings are parts: the root "/" of an absolute path, and every
      piece between slashes that is a name. */
  lemma PartsMembers(path: string)
    ensures forall x :: x in Parts(path) <==>
              (x == "/" && |path| > 0 && path[0] == '/') ||
              (IsName(x) && x in Segments(if |path| > 0 && path[0] == '/' then path[1..] else path))
  {
    var rest := if |path| > 0 && path[0] == '/' then path[1..] else path;
    NamesMembers(Segments(rest));
    assert !IsName("/") || "/" !in Segments(rest) by {
      SegmentsSlashFree(rest);
    }
  }

  /** `parts[index]`, or `None` where Python raises `IndexError`. */
  function PartAt(path: string, index: nat): (r: Option<string>)
    ensures r.Some? <==> index < |Parts(path)|
    ensures r.Some? ==> r.value == Parts(path)[index]
  {
    var parts := Parts(path);
    if index < |parts| then Some(parts[index]) else None
  }
}

=== FILE: report.dfy ===
/** `ND2Analyzer.generate_report` (get_stats.py): totals over the findings,
    the per-user summary that `groupby('user')` builds, and one migration
    recommendation per finding. Sizes and dates stay raw integers; the
    human-readable formatting is presentation. */
module Report {
  import Clock
  import Lexicographic
  import opened Sorting
  import opened Analyzer

  /** Unused for more than this many whole days makes a file HIGH priority. */
  const HighPriorityDays: int := 180

  datatype Priority = High | Medium

  datatype Recommendation = Recommendation(file: string, size: int, daysUnused: int, lastAccess: int, priority: Priority)

  /** One row of the grouped summary: the number of findings of `user`,
      their total size and their earliest access. */
  datatype UserSummary = UserSummary(user: string, count: int, totalSize: int, oldestAccess: int)

  datatype Report = Report(
    totalFiles: nat,
    totalSize: int,
    usersAffected: nat,
    userDetails: seq<UserSummary>,
    recommendations: seq<Recommendation>)

  /** `NoFiles` is the "No files found matching criteria" string returned
      instead of a report. */
  datatype Outcome = NoFiles | Generated(report: Report)

  /** The recommendation for one finding: whole days since the last access,
      HIGH beyond 180 of them. */
  function Recommend(f: Finding, now: int): (r: Recommendation)
    ensures r.file == f.path && r.size == f.size && r.lastAccess == f.lastAccess
    ensures r.daysUnused * Clock.TicksPerDay <= now - f.lastAccess < (r.daysUnused + 1) * Clock.TicksPerDay
    ensures r.priority == High <==> now - f.lastAccess >= (HighPriorityDays + 1) * Clock.TicksPerDay
  {
    var days := Clock.WholeDays(f.lastAccess, now);
    Recommendation(f.path, f.size, days, f.lastAccess, if days > HighPriorityDays then High else Medium)
  }

  function Recommendations(findings: seq<Finding>, now: int): (r: seq<Recommendation>)
    ensures |r| == |findings|
    ensures forall i :: 0 <= i < |findings| ==> r[i] == Recommend(findings[i], now)
  {
    if |findings| == 0 then []
    else [Recommend(findings[0], now)] + Recommendations(findings[1..], now)
  }

  // ---------------------------------------------------------------------
  // Per-user sums

  function One(f: Finding): int { 1 }

  function Size(f: Finding): int { f.size }

  /** Sum of `w` over the findings of `user`. */
  function Tally(findings: seq<Finding>, user: string, w: Finding -> int): int
  {
    if |findings| == 0 then 0
    else (if findings[0].user == user then w(findings[0]) else 0) + Tally(findings[1..], user, w)
  }

  predicate HasFindings(findings: seq<Finding>, user: string)
  {
    exists i :: 0 <= i < |findings| && findings[i].user == user
  }

  /** The earliest access among the findings of `user`. */
  function OldestAccess(findings: seq<Finding>, user: string): (t: int)
    requires HasFindings(findings, user)
    ensures exists i :: 0 <= i < |findings| && findings[i].user == user && findings[i].lastAccess == t
    ensures forall i :: 0 <= i < |findings| && findings[i].user == user ==> t <= findings[i].lastAccess
  {
    var f := findings[0];
    assert forall i :: 1 <= i < |findings| ==> findings[i] == findings[1..][i - 1];
    if !HasFindings(findings[1..], user) then
      f.lastAccess
    else
      var t := OldestAccess(findings[1..], user);
      if f.user == user && f.lastAccess < t then f.lastAccess else t
  }

  lemma {:induction false} TallyOneAtLeastOne(findings: seq<Finding>, user: string)
    requires HasFindings(findings, user)
    ensures Tally(findings, user, One) >= 1
    decreases |findings|
  {
    assert forall i :: 1 <= i < |findings| ==> findings[i] == findings[1..][i - 1];
    if findings[0].user != user {
      TallyOneAtLeastOne(findings[1..], user);
    } else {
      TallyOneNonNegative(findings[1..], user);
    }
  }

  lemma {:induction false} TallyOneNonNegative(findings: seq<Finding>, user: string)
    ensures Tally(findings, user, One) >= 0
    decreases |findings|
  {
    if |findings| > 0 {
      TallyOneNonNegative(findings[1..], user);
    }
  }

  /** The summary row of one user. */
  function Summarize(findings: seq<Finding>, user: string): (s: UserSummary)
    requires HasFindings(findings, user)
    ensures s.user == user && s.count >= 1
    ensures s.count == Tally(findings, user, One) && s.totalSize == Tally(findings, user, Size)
    ensures forall i :: 0 <= i < |findings| && findings[i].user == user ==> s.oldestAccess <= findings[i].lastAccess
    ensures exists i :: 0 <= i < |findings| && findings[i].user == user && findings[i].lastAccess == s.oldestAccess
  {
    TallyOneAtLeastOne(findings, user);
    UserSummary(user, Tally(findings, user, One), Tally(findings, user, Size), OldestAccess(findings, user))
  }

  function Summaries(findings: seq<Finding>, users: seq<string>): (r: seq<UserSummary>)
    requires forall u :: u in users ==> HasFindings(findings, u)
    ensures |r| == |users|
    ensures forall i :: 0 <= i < |users| ==> r[i] == Summarize(findings, users[i])
  {
    if |users| == 0 then [] else [Summarize(findings, users[0])] + Summaries(findings, users[1..])
  }

  /** The users of the findings, in walk order. */
  function Owners(findings: seq<Finding>): (r: seq<string>)
    ensures forall u :: u in r <==> HasFindings(findings, u)
  {
    if |findings| == 0 then []
    else
      assert forall i :: 1 <= i < |findings| ==> findings[i] == findings[1..][i - 1];
      [findings[0].user] + Owners(findings[1..])
  }

  /** The groups in `groupby` order: distinct users, sorted. */
  function GroupKeys(findings: seq<Finding>): (r: seq<string>)
    ensures Lexicographic.StrictlySorted(r)
    ensures forall u :: u in r <==> HasFindings(findings, u)
  {
    Lexicographic.SortedDistinct(Owners(findings))
  }

  // ---------------------------------------------------------------------
  // generate_report

  function GenerateReport(findings: seq<Finding>, now: int): (r: Outcome)
    ensures r.NoFiles? <==> |findings| == 0
    ensures r.Generated? ==>
              && r.report.totalFiles == |findings|
              && r.report.totalSize == SumOf(findings, Size)
              && r.report.usersAffected == |set f | f in findings :: f.user|
              && r.report.recommendations == Recommendations(findings, now)
    ensures r.Generated? ==>
              && Lexicographic.StrictlySorted(UsersOf(r.report.userDetails))
              && (forall u :: u in UsersOf(r.report.userDetails) <==> HasFindings(findings, u))
    ensures r.Generated? ==> forall s :: s in r.report.userDetails ==>
              s.count >= 1 && s.count == Tally(findings, s.user, One) && s.totalSize == Tally(findings, s.user, Size)
    ensures r.Generated? ==> forall s :: s in r.report.userDetails ==>
              && (forall i :: 0 <= i < |findings| && findings[i].user == s.user ==> s.oldestAccess <= findings[i].lastAccess)
              && (exists i :: 0 <= i < |findings| && findings[i].user == s.user && findings[i].lastAccess == s.oldestAccess)
  {
    if |findings| == 0 then NoFiles
    else
      var users := GroupKeys(findings);
      var details := Summaries(findings, users);
      DetailUsers(findings, users, details);
      UsersAffected(findings, users);
      Generated(Report(|findings|, SumOf(findings, Size), |users|, details, Recommendations(findings, now)))
  }

  function UsersOf(details: seq<UserSummary>): (r: seq<string>)
    ensures |r| == |details|
    ensures forall i :: 0 <= i < |details| ==> r[i] == details[i].user
  {
    if |details| == 0 then [] else [details[0].user] + UsersOf(details[1..])
  }

  lemma DetailUsers(findings: seq<Finding>, users: seq<string>, details: seq<UserSummary>)
    requires forall u :: u in users ==> HasFindings(findings, u)
    requires details == Summaries(findings, users)
    ensures UsersOf(details) == users
  {
  }

  /** The number of groups is the number of distinct users. */
  lemma UsersAffected(findings: seq<Finding>, users: seq<string>)
    requires Lexicographic.StrictlySorted(users)
    requires forall u :: u in users <==> HasFindings(findings, u)
    ensures |users| == |set f | f in findings :: f.user|
  {
    Lexicographic.SortedCardinality(users);
    assert (set x | x in users) == (set f | f in findings :: f.user) by {
      forall u | u in users
        ensures u in (set f | f in findings :: f.user)
      {
        var i :| 0 <= i < |findings| && findings[i].user == u;
        assert findings[i] in findings;
      }
    }
  }

  // ---------------------------------------------------------------------
  // The summary adds up to the totals

  function SummaryCount(s: UserSummary): int { s.count }

  function SummarySize(s: UserSummary): int { s.totalSize }

  /** The group counts add up to the number of findings and the group sizes
      to the total size. */
  lemma SummaryAddsUp(findings: seq<Finding>, now: int)
    requires |findings| > 0
    ensures SumOf(GenerateReport(findings, now).report.userDetails, SummaryCount)
            == GenerateReport(findings, now).report.totalFiles
    ensures SumOf(GenerateReport(findings, now).report.userDetails, SummarySize)
            == GenerateReport(findings, now).report.totalSize
  {
    var users := GroupKeys(findings);
    StrictlySortedIsDistinct(users);
    forall i | 0 <= i < |findings|
      ensures findings[i].user in users
    {
    }
    SummariesSum(findings, users);
    TallyPartition(users, findings, One);
    TallyPartition(users, findings, Size);
    CountIsLength(findings);
  }

  lemma {:induction false} CountIsLength(findings: seq<Finding>)
    ensures SumOf(findings, One) == |findings|
    decreases |findings|
  {
    if |findings| > 0 {
      CountIsLength(findings[1..]);
    }
  }

  predicate Distinct(users: seq<string>)
  {
    forall i, j :: 0 <= i < j < |users| ==> users[i] != users[j]
  }

  lemma StrictlySortedIsDistinct(users: seq<string>)
    requires Lexicographic.StrictlySorted(users)
    ensures Distinct(users)
  {
    forall i, j | 0 <= i < j < |users|
      ensures users[i] != users[j]
    {
      Lexicographic.LessIrreflexive(users[i]);
    }
  }

  /** Sum of the per-user tallies over a list of users. */
  function TallyAll(users: seq<string>, findings: seq<Finding>, w: Finding -> int): int
  {
    if |users| == 0 then 0 else Tally(findings, users[0], w) + TallyAll(users[1..], findings, w)
  }

  lemma {:induction false} SummariesSum(findings: seq<Finding>, users: seq<string>)
    requires forall u :: u in users ==> HasFindings(findings, u)
    ensures SumOf(Summaries(findings, users), SummaryCount) == TallyAll(users, findings, One)
    ensures SumOf(Summaries(findings, users), SummarySize) == TallyAll(users, findings, Size)
    decreases |users|
  {
    if |users| > 0 {
      assert forall u :: u in users[1..] ==> u in users;
      SummariesSum(findings, users[1..]);
      assert Summaries(findings, users)[1..] == Summaries(findings, users[1..]);
    }
  }

  /** `v` counted for every occurrence of `u` in `users`. */
  function Pick(users: seq<string>, u: string, v: int): int
  {
    if |users| == 0 then 0 else (if users[0] == u then v else 0) + Pick(users[1..], u, v)
  }

  lemma {:induction false} PickOnce(users: seq<string>, u: string, v: int)
    requires Distinct(users)
    ensures Pick(users, u, v) == if u in users then v else 0
    decreases |users|
  {
    if |users| > 0 {
      PickOnce(users[1..], u, v);
      assert users == [users[0]] + users[1..];
      if users[0] == u {
        assert u !in users[1..] by {
          forall j | 0 <= j < |users[1..]|
            ensures users[1..][j] != u
          {
            assert users[1..][j] == users[j + 1];
          }
        }
      }
    }
  }

  /** Splitting off the first finding from every user's tally. */
  lemma {:induction false} TallyAllCons(users: seq<string>, findings: seq<Finding>, w: Finding -> int)
    requires |findings| > 0
    ensures TallyAll(users, findings, w)
            == Pick(users, findings[0].user, w(findings[0])) + TallyAll(users, findings[1..], w)
    decreases |users|
  {
    if |users| > 0 {
      TallyAllCons(users[1..], findings, w);
    }
  }

  /** Every finding belongs to exactly one of the distinct users, so the
      per-user tallies add up to the overall sum. */
  lemma {:induction false} TallyPartition(users: seq<string>, findings: seq<Finding>, w: Finding -> int)
    requires Distinct(users)
    requires forall i :: 0 <= i < |findings| ==> findings[i].user in users
    ensures TallyAll(users, findings, w) == SumOf(findings, w)
    decreases |findings|
  {
    if |findings| == 0 {
      TallyAllEmpty(users, w);
    } else {
      TallyAllCons(users, findings, w);
      PickOnce(users, findings[0].user, w(findings[0]));
      assert forall i :: 0 <= i < |findings[1..]| ==> findings[1..][i] == findings[i + 1];
      TallyPartition(users, findings[1..], w);
    }
  }

  lemma {:induction false} TallyAllEmpty(users: seq<string>, w: Finding -> int)
    ensures TallyAll(users, [], w) == 0
    decreases |users|
  {
    if |users| > 0 {
      TallyAllEmpty(users[1..], w);
    }
  }

  /** A finding the scan kept is reported as unused for at least the
      scan's threshold of whole days. */
  lemma StaleFindingIsOld(f: Finding, now: int, thresholdDays: int)
    requires f.lastAccess < Cutoff(now, thresholdDays)
    ensures Recommend(f, now).daysUnused >= thresholdDays
    ensures thresholdDays > HighPriorityDays ==> Recommend(f, now).priority == High
  {
  }
}

=== FILE: sorting.dfy ===
/** A stable insertion sort by an integer key, and sums over sequences.
    Both query results of the storage dashboard are ordered through this one
    definition: by `date` ascending, and by `size_bytes` descending (the key is
    the negated size). */
module Sorting {

  /** Keys never decrease from left to right. */
  predicate SortedBy<T>(s: seq<T>, key: T -> int)
  {
    forall i, j :: 0 <= i < j < |s| ==> key(s[i]) <= key(s[j])
  }

  /** Inserts `x` before the first element whose key is not smaller, so `x`
      goes in front of the elements with an equal key. `SortBy` inserts the
      elements from the back of its input, so an element that comes earlier
      in the input ends up in front of the later ones with the same key. */
  function Insert<T>(x: T, s: seq<T>, key: T -> int): (r: seq<T>)
    requires SortedBy(s, key)
    ensures SortedBy(r, key)
    ensures multiset(r) == multiset(s) + multiset{x}
    ensures |r| == |s| + 1
  {
    if |s| == 0 then [x]
    else if key(x) <= key(s[0]) then [x] + s
    else
      var tail := Insert(x, s[1..], key);
      assert s == [s[0]] + s[1..];
      HeadBelowAll(s[0], tail, s[1..], x, key);
      [s[0]] + tail
  }

  /** An element whose key is at most those of `s` and of `x` is also at
      most every key of any rearrangement of `s` plus `x`. */
  lemma HeadBelowAll<T>(h: T, t: seq<T>, s: seq<T>, x: T, key: T -> int)
    requires SortedBy([h] + s, key)
    requires key(h) <= key(x)
    requires SortedBy(t, key)
    requires multiset(t) == multiset(s) + multiset{x}
    ensures SortedBy([h] + t, key)
  {
    forall j | 0 <= j < |t|
      ensures key(h) <= key(t[j])
    {
      assert t[j] in multiset(t);
      if t[j] != x {
        assert t[j] in multiset(s);
        var k :| 0 <= k < |s| && s[k] == t[j];
        assert ([h] + s)[0] == h && ([h] + s)[k+1] == s[k];
      }
    }
    var u := [h] + t;
    forall i, j | 0 <= i < j < |u|
      ensures key(u[i]) <= key(u[j])
    {
      if i == 0 {
        assert u[j] == t[j-1];
      } else {
        assert u[i] == t[i-1] && u[j] == t[j-1];
      }
    }
  }

  /** Insertion sort: the result is ordered by `key` and holds exactly the
      elements of `s`, each as often as in `s`. */
  function SortBy<T>(s: seq<T>, key: T -> int): (r: seq<T>)
    ensures SortedBy(r, key)
    ensures multiset(r) == multiset(s)
    ensures |r| == |s|
  {
    if |s| == 0 then []
    else
      assert s == [s[0]] + s[1..];
      Insert(s[0], SortBy(s[1..], key), key)
  }

  /** Sum of `w` over the elements of `s`. */
  function SumOf<T>(s: seq<T>, w: T -> int): int
  {
    if |s| == 0 then 0 else w(s[0]) + SumOf(s[1..], w)
  }

  lemma {:induction false} SumOfConcat<T>(a: seq<T>, b: seq<T>, w: T -> int)
    ensures SumOf(a + b, w) == SumOf(a, w) + SumOf(b, w)
    decreases |a|
  {
    if |a| == 0 {
      assert a + b == b;
    } else {
      assert (a + b)[1..] == a[1..] + b;
      SumOfConcat(a[1..], b, w);
    }
  }

  /** Taking one summand out of the middle of a sequence. */
  lemma SumOfRemove<T>(b: seq<T>, i: int, w: T -> int)
    requires 0 <= i < |b|
    ensures SumOf(b, w) == w(b[i]) + SumOf(b[..i] + b[i+1..], w)
  {
    assert b == b[..i] + ([b[i]] + b[i+1..]);
    SumOfConcat(b[..i], [b[i]] + b[i+1..], w);
    assert ([b[i]] + b[i+1..])[1..] == b[i+1..];
    SumOfConcat(b[..i], b[i+1..], w);
  }

  /** A sum does not depend on the order of the summands. */
  lemma {:induction false} SumOfPermutation<T>(a: seq<T>, b: seq<T>, w: T -> int)
    requires multiset(a) == multiset(b)
    ensures SumOf(a, w) == SumOf(b, w)
    decreases |a|
  {
    if |a| == 0 {
      assert |b| == |multiset(b)| == 0;
    } else {
      var x := a[0];
      assert a == [x] + a[1..];
      assert x in multiset(b);
      var i :| 0 <= i < |b| && b[i] == x;
      var rest := b[..i] + b[i+1..];
      assert multiset(a[1..]) == multiset(rest) by {
        assert b == b[..i] + [x] + b[i+1..];
        assert multiset(b) == multiset(b[..i]) + multiset{x} + multiset(b[i+1..]);
        assert multiset(rest) == multiset(b[..i]) + multiset(b[i+1..]);
        assert multiset(a) == multiset{x} + multiset(a[1..]);
        assert multiset(a[1..]) == multiset(a) - multiset{x};
      }
      SumOfPermutation(a[1..], rest, w);
      SumOfRemove(b, i, w);
    }
  }
}

=== FILE: storage.dfy ===
/** The dashboard's queries over the `StorageData` table (app.py): the
    latest snapshot of every folder, one folder's recent history, the total
    of the latest snapshots, and the capacity status with its warning level.
    The table is an in-memory sequence of rows; its order is the order in
    which the database happens to scan them. */
module Storage {
  import Clock
  import opened Sorting

  /** One `StorageData` row: a folder's (user's) total size at `date`. */
  datatype Row = Row(id: int, folder: string, sizeBytes: int, date: int, lastModified: int)

  /** `TOTAL_STORAGE_CAPACITY`: 80 TiB in bytes. */
  const Capacity: int := 80 * 1024 * 1024 * 1024 * 1024

  function DateKey(r: Row): int { r.date }

  /** Sorting by the negated size orders rows by size, largest first. */
  function NegatedSize(r: Row): int { -r.sizeBytes }

  function SizeOf(r: Row): int { r.sizeBytes }

  /** The folders present in the table. */
  function Folders(rows: seq<Row>): set<string>
  {
    set r | r in rows :: r.folder
  }

  /** `x` carries the latest date among the rows of its folder. */
  predicate IsLatestIn(table: seq<Row>, x: Row)
  {
    forall s :: s in table && s.folder == x.folder ==> s.date <= x.date
  }

  // ---------------------------------------------------------------------
  // get_latest_storage_data

  /** The grouped subquery `SELECT folder, max(date) ... GROUP BY folder`. */
  function MaxDates(rows: seq<Row>): (m: map<string, int>)
    ensures m.Keys == Folders(rows)
    ensures forall r :: r in rows ==> r.date <= m[r.folder]
    ensures forall f :: f in m ==> exists r :: r in rows && r.folder == f && r.date == m[f]
  {
    if |rows| == 0 then map[]
    else
      var m := MaxDates(rows[1..]);
      var m' := if rows[0].folder in m && rows[0].date <= m[rows[0].folder] then m
                else m[rows[0].folder := rows[0].date];
      MaxDatesStep(rows, m, m');
      m'
  }

  /** Adding the first row of `rows` to the maxima of the rest. */
  lemma MaxDatesStep(rows: seq<Row>, m: map<string, int>, m': map<string, int>)
    requires |rows| > 0
    requires m.Keys == Folders(rows[1..])
    requires forall r :: r in rows[1..] ==> r.date <= m[r.folder]
    requires forall f :: f in m ==> exists r :: r in rows[1..] && r.folder == f && r.date == m[f]
    requires m' == if rows[0].folder in m && rows[0].date <= m[rows[0].folder] then m
                   else m[rows[0].folder := rows[0].date]
    ensures m'.Keys == Folders(rows)
    ensures forall r :: r in rows ==> r.date <= m'[r.folder]
    ensures forall f :: f in m' ==> exists r :: r in rows && r.folder == f && r.date == m'[f]
  {
  }

  /** The join: keeps the rows whose date equals their folder's maximum. */
  function KeepAtMax(rows: seq<Row>, m: map<string, int>): (r: seq<Row>)
    ensures forall x :: multiset(r)[x] ==
                        (if x.folder in m && m[x.folder] == x.date then multiset(rows)[x] else 0)
  {
    if |rows| == 0 then []
    else
      var x := rows[0];
      assert rows == [x] + rows[1..];
      var tail := KeepAtMax(rows[1..], m);
      if x.folder in m && m[x.folder] == x.date then [x] + tail else tail
  }

  /** `get_latest_storage_data`: every row dated at its folder's latest
      date, all tied rows included, ordered by size, largest first. */
  function LatestStorageData(rows: seq<Row>): (r: seq<Row>)
    ensures forall x :: multiset(r)[x] ==
                        (if IsLatestIn(rows, x) then multiset(rows)[x] else 0)
    ensures forall x :: x in r ==> x in rows && IsLatestIn(rows, x)
    ensures forall x :: x in rows ==> exists y :: y in r && y.folder == x.folder
    ensures forall i, j :: 0 <= i < j < |r| ==> r[i].sizeBytes >= r[j].sizeBytes
  {
    var sorted := SortBy(KeepAtMax(rows, MaxDates(rows)), NegatedSize);
    LatestCounts(rows, sorted);
    LatestCoversFolders(rows, sorted);
    sorted
  }

  /** Any rearrangement of the joined rows holds each latest row as often
      as the table does, and nothing else. */
  lemma LatestCounts(rows: seq<Row>, r: seq<Row>)
    requires multiset(r) == multiset(KeepAtMax(rows, MaxDates(rows)))
    ensures forall x :: multiset(r)[x] ==
                        (if IsLatestIn(rows, x) then multiset(rows)[x] else 0)
    ensures forall x :: x in r ==> x in rows && IsLatestIn(rows, x)
  {
    var m := MaxDates(rows);
    var kept := KeepAtMax(rows, m);
    LatestIsAtMax(rows, m);
    forall x
      ensures multiset(r)[x] == (if IsLatestIn(rows, x) then multiset(rows)[x] else 0)
    {
      assert multiset(r)[x] == multiset(kept)[x];
      if x in rows {
        assert x.folder in m;
        assert m[x.folder] == x.date <==> IsLatestIn(rows, x);
      } else {
        assert multiset(rows)[x] == 0;
      }
    }
    forall x | x in r
      ensures x in rows && IsLatestIn(rows, x)
    {
      assert multiset(r)[x] > 0;
    }
  }

  /** With `m` the per-folder maxima, "dated at the maximum" and "latest"
      agree on every row of the table. */
  lemma LatestIsAtMax(rows: seq<Row>, m: map<string, int>)
    requires m.Keys == Folders(rows)
    requires forall r :: r in rows ==> r.date <= m[r.folder]
    requires forall f :: f in m ==> exists r :: r in rows && r.folder == f && r.date == m[f]
    ensures forall x :: x in rows ==> (m[x.folder] == x.date <==> IsLatestIn(rows, x))
  {
  }

  /** Every folder keeps at least one row: one that carries the maximum. */
  lemma LatestCoversFolders(rows: seq<Row>, r: seq<Row>)
    requires forall x :: multiset(r)[x] ==
                         (if IsLatestIn(rows, x) then multiset(rows)[x] else 0)
    ensures forall x :: x in rows ==> exists y :: y in r && y.folder == x.folder
  {
    var m := MaxDates(rows);
    forall x | x in rows
      ensures exists y :: y in r && y.folder == x.folder
    {
      var w :| w in rows && w.folder == x.folder && w.date == m[x.folder];
      assert IsLatestIn(rows, w);
      assert multiset(r)[w] == multiset(rows)[w] > 0;
      assert w in r;
    }
  }

  // ---------------------------------------------------------------------
  // get_user_history

  /** The rows of `username` dated at or after `cutoff`, in table order. */
  function RecentRows(rows: seq<Row>, username: string, cutoff: int): (r: seq<Row>)
    ensures forall x :: multiset(r)[x] ==
                        (if x.folder == username && x.date >= cutoff then multiset(rows)[x] else 0)
  {
    if |rows| == 0 then []
    else
      var x := rows[0];
      assert rows == [x] + rows[1..];
      var tail := RecentRows(rows[1..], username, cutoff);
      if x.folder == username && x.date >= cutoff then [x] + tail else tail
  }

  /** `get_user_history`: the rows of `username` dated no earlier than
      `days` days before `now` (the cutoff itself included), oldest first. */
  function UserHistory(rows: seq<Row>, username: string, now: int, days: int): (r: seq<Row>)
    ensures forall x :: multiset(r)[x] ==
                        (if x.folder == username && now - x.date <= days * Clock.TicksPerDay
                         then multiset(rows)[x] else 0)
    ensures forall i, j :: 0 <= i < j < |r| ==> r[i].date <= r[j].date
  {
    var cutoff := Clock.DaysBefore(now, days);
    var sorted := SortBy(RecentRows(rows, username, cutoff), DateKey);
    assert forall i :: 0 <= i < |sorted| ==> DateKey(sorted[i]) == sorted[i].date;
    sorted
  }

  // ---------------------------------------------------------------------
  // get_total_storage

  /** `get_total_storage`: the sizes of the latest rows added up. */
  function TotalStorage(rows: seq<Row>): (t: int)
    ensures |rows| == 0 ==> t == 0
  {
    SumOf(LatestStorageData(rows), SizeOf)
  }

  /** The sizes of the rows of `part` that are latest within `table`, in
      table order: the total without the join and the sort. */
  function LatestSizeSum(part: seq<Row>, table: seq<Row>): int
  {
    if |part| == 0 then 0
    else
      var own := if IsLatestIn(table, part[0]) then part[0].sizeBytes else 0;
      own + LatestSizeSum(part[1..], table)
  }

  /** The total counts every latest row once, whatever order the sort put
      them in. */
  lemma TotalStorageIsSumOfLatest(rows: seq<Row>)
    ensures TotalStorage(rows) == LatestSizeSum(rows, rows)
  {
    var latest := LatestStorageData(rows);
    var kept := LatestFilter(rows, rows);
    assert multiset(latest) == multiset(kept);
    SumOfPermutation(latest, kept, SizeOf);
  }

  /** The latest rows of `table` among `part`, in `part` order, with the
      sum of their sizes. */
  lemma {:induction false} LatestFilter(part: seq<Row>, table: seq<Row>) returns (kept: seq<Row>)
    ensures forall x :: multiset(kept)[x] ==
                        (if IsLatestIn(table, x) then multiset(part)[x] else 0)
    ensures SumOf(kept, SizeOf) == LatestSizeSum(part, table)
    decreases |part|
  {
    if |part| == 0 {
      kept := [];
    } else {
      var x := part[0];
      assert part == [x] + part[1..];
      var tail := LatestFilter(part[1..], table);
      kept := if IsLatestIn(table, x) then [x] + tail else tail;
      if IsLatestIn(table, x) {
        assert kept[1..] == tail;
      }
    }
  }

  /** Sizes are non-negative in practice; then so is the total. */
  lemma {:induction false} TotalStorageNonNegative(rows: seq<Row>)
    requires forall r :: r in rows ==> r.sizeBytes >= 0
    ensures TotalStorage(rows) >= 0
  {
    TotalStorageIsSumOfLatest(rows);
    LatestSizeSumNonNegative(rows, rows);
  }

  lemma {:induction false} LatestSizeSumNonNegative(part: seq<Row>, table: seq<Row>)
    requires forall r :: r in part ==> r.sizeBytes >= 0
    ensures LatestSizeSum(part, table) >= 0
    decreases |part|
  {
    if |part| > 0 {
      assert part[0] in part;
      assert forall r :: r in part[1..] ==> r in part;
      LatestSizeSumNonNegative(part[1..], table);
    }
  }

  /** Adding a snapshot of a folder the table has not seen adds exactly
      that snapshot's size to the total. */
  lemma NewFolderAddsItsSize(rows: seq<Row>, x: Row)
    requires x.folder !in Folders(rows)
    ensures TotalStorage(rows + [x]) == TotalStorage(rows) + x.sizeBytes
  {
    var t := rows + [x];
    TotalStorageIsSumOfLatest(rows);
    TotalStorageIsSumOfLatest(t);
    LatestSizeSumConcat(rows, [x], t);
    assert IsLatestIn(t, x) by {
      forall s | s in t && s.folder == x.folder
        ensures s.date <= x.date
      {
        assert s !in rows;
      }
    }
    assert LatestSizeSum([x], t) == x.sizeBytes by {
      assert [x][1..] == [];
    }
    forall s | s in t
      ensures s in rows || s.folder !in Folders(rows)
    {
      if s !in rows {
        assert s == x;
      }
    }
    LatestSizeSumOtherTable(rows, rows, t);
  }

  lemma {:induction false} LatestSizeSumConcat(a: seq<Row>, b: seq<Row>, table: seq<Row>)
    ensures LatestSizeSum(a + b, table) == LatestSizeSum(a, table) + LatestSizeSum(b, table)
    decreases |a|
  {
    if |a| == 0 {
      assert a + b == b;
    } else {
      assert (a + b)[1..] == a[1..] + b;
      LatestSizeSumConcat(a[1..], b, table);
    }
  }

  /** Only the rows of the same folder decide whether a row is latest, so a
      table that agrees on those folders gives the same sum. */
  lemma {:induction false} LatestSizeSumOtherTable(part: seq<Row>, table: seq<Row>, bigger: seq<Row>)
    requires forall r :: r in part ==> r in table
    requires forall s :: s in table ==> s in bigger
    requires forall s :: s in bigger ==> s in table || s.folder !in Folders(table)
    ensures LatestSizeSum(part, table) == LatestSizeSum(part, bigger)
    decreases |part|
  {
    if |part| > 0 {
      var r := part[0];
      assert r in part;
      assert r.folder in Folders(table);
      assert IsLatestIn(table, r) == IsLatestIn(bigger, r) by {
        forall s | s in bigger && s.folder == r.folder
          ensures s in table
        {
        }
      }
      assert forall q :: q in part[1..] ==> q in part;
      LatestSizeSumOtherTable(part[1..], table, bigger);
    }
  }

  // ---------------------------------------------------------------------
  // get_storage_status

  datatype Level = Normal | Notice | Warning | Critical

  /** The fields of the status dictionary; `usage_percent` is the real
      number `UsagePercent(totalUsed, capacity)`. */
  datatype Status = Status(totalUsed: int, capacity: int, available: int, level: Level)

  /** `(total_used / capacity) * 100`, computed exactly. */
  function UsagePercent(used: int, capacity: int): (p: real)
    requires capacity > 0
    ensures p * capacity as real == 100.0 * used as real
  {
    (used as real / capacity as real) * 100.0
  }

  /** The warning cascade: the highest threshold reached wins, and each
      threshold is inclusive. */
  function Classify(used: int, capacity: int): (l: Level)
    requires capacity > 0
    ensures l == Critical <==> 100 * used >= 90 * capacity
    ensures l == Warning <==> 80 * capacity <= 100 * used < 90 * capacity
    ensures l == Notice <==> 70 * capacity <= 100 * used < 80 * capacity
    ensures l == Normal <==> 100 * used < 70 * capacity
  {
    var percent := UsagePercent(used, capacity);
    PercentReaches(used, capacity, 90);
    PercentReaches(used, capacity, 80);
    PercentReaches(used, capacity, 70);
    if percent >= 90.0 then Critical
    else if percent >= 80.0 then Warning
    else if percent >= 70.0 then Notice
    else Normal
  }

  /** A percentage threshold is a cross-multiplied integer comparison. */
  lemma PercentReaches(used: int, capacity: int, p: int)
    requires capacity > 0
    ensures UsagePercent(used, capacity) >= p as real <==> 100 * used >= p * capacity
  {
  }

  /** `get_storage_status` for a given total and capacity. */
  function StatusOf(used: int, capacity: int): (s: Status)
    requires capacity > 0
    ensures s.totalUsed == used && s.capacity == capacity
    ensures s.available + s.totalUsed == s.capacity
    ensures s.level == Classify(used, capacity)
  {
    Status(used, capacity, capacity - used, Classify(used, capacity))
  }

  /** `get_storage_status`: the total of the latest snapshots against the
      configured 80 TiB. */
  function StorageStatus(rows: seq<Row>): (s: Status)
    ensures s.capacity == 87_960_930_222_080
    ensures s.totalUsed == TotalStorage(rows)
    ensures s.available == s.capacity - s.totalUsed
    ensures s.level == Classify(s.totalUsed, s.capacity)
    ensures |rows| == 0 ==> s.available == s.capacity && s.level == Normal
  {
    StatusOf(TotalStorage(rows), Capacity)
  }

  function Rank(l: Level): nat
  {
    match l
    case Normal => 0
    case Notice => 1
    case Warning => 2
    case Critical => 3
  }

  /** For a fixed capacity the warning level never drops as usage grows. */
  lemma LevelNeverDecreases(used: int, more: int, capacity: int)
    requires capacity > 0
    requires used <= more
    ensures Rank(Classify(used, capacity)) <= Rank(Classify(more, capacity))
  {
  }
}

=== FILE: wrappers.dfy ===
/** Option and Result values used where the modelled Python code returns
    `None` or raises. */
module Wrappers {

  datatype Option<+T> = None | Some(value: T)

  /** Either a computed value or the exception the Python code would raise. */
  datatype Result<+R, +E> = Success(value: R) | Failure(error: E)
}
